=== FILE: README.md ===
# Locating-array generator: input configuration layer, in Dafny

The generator builds covering, locating and detecting arrays. Before it does, its `Parser`
class (src/parser.cpp) settles the configuration. It does three things.

- **Reads the command line.** The constructor folds over the arguments and sets these fields:
  - the strength t, the location-set size d and the detection separation δ;
  - the requested property: covering only, covering and locating, or all three;
  - the reporting switches: normal/halfway/silent output, debug and verbose;
  - the input, output and partial-array file names.
- **Rejects impossible requests.** `bad_t`, `bad_d` and `bad_delta` refuse a strength, a d or a δ
  that the factor levels cannot support.
- **Validates the input files.** `process_input` reads C (the number of factors) and the C levels
  from the input file. It applies the checks in mode-dependent order. It then accepts a
  partial array only if every row holds C values, each below its factor's level.

The project models these three pieces and the helper `Parser::trim`. It is written as pure
functions over immutable datatypes.

| file | module | models |
|---|---|---|
| common.dfy | `Common` | `Option`/`Result`, the 16-, 32- and 64-bit ranges, truncation into `uint16_t` |
| strings.dfy | `Strings` | `Parser::trim` and `isspace` in the "C" locale |
| numerals.dfy | `Numerals` | `std::stoul`, the test that tells integer arguments from file names |
| arguments.dfy | `Arguments` | `Parser()` defaults and the `Parser(argc, argv)` fold; a reference description of its result |
| validation.dfy | `Validation` | `bad_t`, `bad_d`, `bad_delta` and their combination in `process_input` |
| input.dfy | `InputFile` | the validation in `process_input` over pre-split lines |

Main results:

- **`Arguments.ParseArgsPositional`.** The fold's result depends only on these inputs:
  - the integers among the arguments, in order;
  - the flag letters, concatenated;
  - the first non-empty file names;
  - the first non-empty operand of `--partial`.

  So the mode is covering-only exactly when fewer than two integers are given.
- **Silent mode (`Arguments.SilentUntilHalfway`).** Once `s` is seen, debug and verbose output stay off until an `h`.
- **Detecting implies locating.** A configuration that passes the detecting check also passes the
  locating check. Hence feasibility only shrinks as more properties are requested.
- **`InputFile.ReadRow`.** The two reads of a partial-array line together accept exactly the rows
  whose j-th value lies in [0, levels[j]).
- **`InputFile.ProcessInput`.** The call returns 0 exactly when the input file is well-formed,
  the request is feasible for its levels, and every line of a named partial file is a valid row.
  Each failure is reported as the check that failed first; a row error names the first bad line.

Integers are unbounded in Dafny, so the source's fixed widths are written out explicitly:
- `std::stoul` fails when the magnitude reaches 2^64.
- A minus sign after leading whitespace wraps the value modulo 2^64.
- Storing into the `uint16_t` fields t, d and δ keeps the value modulo 2^16. So the argument
  `65538` sets t to 2 (`Arguments.SingleIntegerSetsStrength`).

## Model

| member | source | states |
|---|---|---|
| `Common.ToU16` | src/parser.cpp:90-98 | assigning the 64-bit `stoul` result to a `uint16_t` field keeps it when it fits and otherwise differs from it by a multiple of 2^16 |
| `Strings.Trim` | src/parser.cpp:255-262 | the result is the slice of the input after its leading whitespace; everything removed before and after it is whitespace; the result neither starts nor ends with whitespace |
| `Strings.TrimOfSplit` | src/parser.cpp:255-262 | for any split of a string into whitespace, a core without whitespace at either end, and whitespace, trimming yields exactly that core |
| `Strings.TrimIdempotent` | src/parser.cpp:255-262 | trimming a trimmed string changes nothing |
| `Strings.TrimEmptyIffAllSpace` | src/parser.cpp:255-262 | trimming yields the empty string exactly when the input consists of whitespace only |
| `Numerals.ParseMagnitude` | src/parser.cpp:89-90 | a magnitude is read only from text that starts with a digit, and an accepted magnitude lies below 2^64; its value, leading zeros included, is stated by `Numerals.LeadingZerosIgnored` |
| `Numerals.ParseUnsigned` | src/parser.cpp:89-90 | `stoul` returns a value only when the first non-blank character is a digit or a sign followed by a digit, so `in1.txt` is a file name; the value lies below 2^64 |
| `Numerals.MagnitudeOfDecimal` | src/parser.cpp:89-90 | the digit-run reading inside `stoul` returns the value of a numeral followed by non-digit text when it is below 2^64, and fails (`out_of_range`) when it is 2^64 or more |
| `Numerals.ZerosValue` | src/parser.cpp:89-90 | leading zeros do not change the value of a digit string |
| `Numerals.LeadingZerosIgnored` | src/parser.cpp:89-90 | a digit run of zeros followed by a numeral, then non-digit text, reads as the numeral's value below 2^64 and fails from 2^64 on |
| `Numerals.ZerosNumeralStart` | src/parser.cpp:89-90 | zeros followed by a numeral start with a digit, whatever follows |
| `Numerals.BlanksSkipped` | src/parser.cpp:89-90 | leading whitespace before a non-blank character does not change what `stoul` reads |
| `Numerals.SignedRun` | src/parser.cpp:89-90 | before a digit run, no sign or `+` reads the run and `-` negates its value modulo 2^64; failure of the run is failure of the whole |
| `Numerals.ParseNumeral` | src/parser.cpp:89-90 | on whitespace, an optional sign, leading zeros, a numeral n and non-digit text, `stoul` fails iff n ≥ 2^64 and otherwise returns n, or (2^64 − n) mod 2^64 after `-` |
| `Numerals.ParseDecimal` | src/parser.cpp:89-90 | `stoul` reads back the decimal numeral of every value below 2^64, whatever non-digit text follows it |
| `Numerals.ParseNegated` | src/parser.cpp:89-90 | after leading whitespace a minus sign is accepted and the magnitude is negated modulo 2^64; a magnitude of 2^64 or more still fails |
| `Numerals.ParseOverflow` | src/parser.cpp:89-109 | a decimal numeral of 2^64 or more, followed by non-digit text, makes `stoul` throw, so the argument is taken as a file name |
| `Numerals.LaterDigitsNoNumber` | src/parser.cpp:89-109 | after optional whitespace, an argument starting with a character that is neither a digit, a sign nor whitespace is a file name, whatever digits follow |
| `Numerals.NoDigitNoNumber` | src/parser.cpp:105-109 | an argument containing no digit makes `stoul` throw, so it is taken as a file name |
| `Arguments.FlagLetter` | src/parser.cpp:60-87 | one flag letter: `s` gives silent output with debug and verbose off; `h` gives halfway output and keeps the other switches; `d`/`v` switch debug/verbose on exactly when the output is not silent and change nothing else; any other letter changes nothing; silent mode with debug and verbose off is preserved |
| `Arguments.Flags` | src/parser.cpp:59-87 | a cluster of letters keeps silent mode quiet; after an `s` that no `h` follows the result is silent with debug and verbose off; after an `h` that no `h` or `s` follows the output is halfway; without `h` or `s` the output mode is unchanged |
| `Arguments.FlagsAppend` | src/parser.cpp:59-87 | processing two flag clusters in turn equals processing their concatenation |
| `Arguments.SilentUntilHalfway` | src/parser.cpp:59-87 | across clusters: once an `s` is seen, whatever letters precede it, and as long as no `h` follows, the output is silent with debug and verbose off |
| `Arguments.DefaultConfig` | src/parser.cpp:30-35 | the defaults: d below t with d ≥ 1, δ ≥ 1, every property requested, normal output with debug and verbose off, no file named |
| `Arguments.Step` | src/parser.cpp:45-112 | one loop iteration: the operand of `--partial` becomes the partial file name verbatim if none is set yet, and changes nothing else; any other argument whose first character is a dash changes only the reporting switches, as the flag letters after the dash dictate; only `--partial` arms the operand state; at most one integer is counted |
| `Arguments.Fold` | src/parser.cpp:45-112 | the loop keeps silent mode quiet and never decreases the count of integer arguments |
| `Arguments.ParseArgs` | src/parser.cpp:40-113 | the constructed configuration is quiet in silent mode; with no argument after the program name it is the default d=1, t=2, δ=1, normal output, no files, covering only |
| `Arguments.ParseArgsPositional` | src/parser.cpp:40-113 | the constructor's result is determined per kind of argument: t, d, δ and the mode by the integers in order, the reporting switches by the flag letters in order, input/output/partial names by the first non-empty file names and `--partial` operands |
| `Arguments.ModeCountsIntegers` | src/parser.cpp:89-104 | the mode is covering-only iff fewer than 2 integers are given, covering-and-locating iff exactly 2, all three iff 3 or more; then d, t, δ are the first three integers modulo 2^16, later ones ignored |
| `Arguments.ProgramNameIgnored` | src/parser.cpp:42 | replacing `argv[0]` does not change the configuration |
| `Arguments.PartialOperandVerbatim` | src/parser.cpp:47-57 | the argument after `--partial` becomes the partial file name verbatim, even if it looks like a flag or an integer, and nothing else changes |
| `Arguments.SingleIntegerSetsStrength` | src/parser.cpp:89-92 | one decimal integer argument n sets t to n modulo 2^16 and keeps every other default, mode covering only |
| `Validation.BadT` | src/parser.cpp:339-353 | the strength is refused iff it is 0 or exceeds the number of factors |
| `Validation.ScanLocating` | src/parser.cpp:357-374 | the early-exit loop over the levels is true iff some level is below d or the levels equal to d, counted with those already seen, reach 2 |
| `Validation.BadD` | src/parser.cpp:355-377 | location is refused iff location is requested and some factor has fewer than d levels or at least two factors have exactly d levels |
| `Validation.ScanDetecting` | src/parser.cpp:385-392 | the early-exit loop is true iff some level is at most d |
| `Validation.BadDelta` | src/parser.cpp:379-394 | detection is refused iff δ is 0 or some factor has at most d levels |
| `Validation.FeasibleLevels` | src/parser.cpp:178-180 | the mode-dependent checks (`Feasible`) pass iff 1 ≤ t ≤ C; for location (any mode but covering only) every factor has at least d levels and at most one has exactly d; for detection (all properties) δ ≥ 1 and every factor has more than d levels |
| `Validation.DefaultsFeasible` | src/parser.cpp:30-35 | with the default t = 2, d = 1, δ = 1 the checks pass iff there are at least two factors each with at least two levels; in covering-only mode iff there are at least two factors |
| `Validation.DetectableIsLocatable` | src/parser.cpp:355-394 | whatever passes `bad_delta` passes `bad_d`, in every mode |
| `Validation.FeasibleEscalates` | src/parser.cpp:178-180 | a configuration feasible for all three properties is feasible for covering and locating, which is feasible for covering only; in all-properties mode feasibility is exactly passing `bad_t` and `bad_delta` |
| `InputFile.ReadU16` | src/parser.cpp:166-168 | reading into a `uint16_t` succeeds exactly on a number in [0, 2^16) and yields that number |
| `InputFile.ReadI32` | src/parser.cpp:200-201 | reading into an `int32_t` succeeds exactly on a number in [-2^31, 2^31) and yields that number |
| `InputFile.ReadLevels` | src/parser.cpp:162-175 | the levels line is accepted iff its first C items are all 16-bit numbers, and the result is exactly those C numbers |
| `InputFile.Header` | src/parser.cpp:149-175 | the header is accepted iff line 1 starts with a 16-bit C ≥ 1 and line 2 starts with C 16-bit numbers; the levels are then exactly those C numbers; a bad C is reported as a bad C exactly when line 1 does not start so, otherwise a refused header is reported as bad levels |
| `InputFile.SignedPass` | src/parser.cpp:198-211 | the first pass accepts a line iff its first C items are non-negative 32-bit numbers; otherwise it reports either a negative 32-bit number, with its column, after non-negative ones, or a missing or non-32-bit item after non-negative ones |
| `InputFile.UnsignedPass` | src/parser.cpp:213-229 | the second pass accepts a line iff its first C items are 16-bit numbers each below its factor's level, and returns them; otherwise it reports either a 16-bit number not below its level, with its column, after values below theirs, or a missing or non-16-bit item after such values |
| `InputFile.ReadRow` | src/parser.cpp:197-230 | a partial-array line is accepted iff it is a valid row (C values, the j-th in [0, levels[j])), and the row read is exactly those values; a refusal names its cause, with columns numbered from 1: a negative value after non-negative ones, a value not below its level once the first pass has accepted, or an unreadable item |
| `InputFile.ReadPartial` | src/parser.cpp:193-233 | the loop succeeds iff every remaining line is a valid row; the rows are then the lines' values in order and `num_rows` counts one per line; otherwise it fails at the first invalid line, numbered from 1 |
| `InputFile.CheckAndReadPartial` | src/parser.cpp:177-235 | after the header: success iff the request is feasible and either no partial file is named or every line of it is a valid row; success leaves the rows of the partial file, one per line with `num_rows` counting them, or no rows when none is named; a failure of a feasibility check is reported as that check's error; an unopenable partial file is reported exactly when the request is feasible and a partial file is named; a row error names the first invalid line |
| `InputFile.FeasibilityError` | src/parser.cpp:178-180 | no error iff feasible; bad strength iff `bad_t`; bad location iff `bad_t` passed, location is requested and `bad_d` fails; bad detection iff `bad_t` and `bad_d` passed, all properties are requested and `bad_delta` fails |
| `InputFile.PartialFile` | src/parser.cpp:181-235 | with no partial file named: success with no rows; otherwise success iff the file opens and every line is a valid row, the rows then being the lines' values with `num_rows` counting them; an unopenable file is reported as such; a row error names the first invalid line |
| `InputFile.ReadPartialFromStart` | src/parser.cpp:195-233 | read from the first line with no rows yet, a successful loop leaves exactly one row per line of the file, in order, with `num_rows` counting them |
| `InputFile.ReturnCode` | src/parser.cpp:135-236 | the return value is 0 or -1, and 0 exactly on success |
| `InputFile.ProcessInput` | src/parser.cpp:135-236 | returns 0 iff the input file opens, its header is well-formed, the request is feasible for its levels, and a named partial file opens with every line a valid row; on 0 the levels are line 2's first C items and everything `CheckAndReadPartial` lists holds; an unopenable input is reported exactly when it is missing; a bad header fails with the header's error before any feasibility check; after a good header the first failing feasibility check is the one reported; a row error names the first invalid line of the partial file |
| `InputFile.CoveringOnlyIgnoresLocation` | src/parser.cpp:178-180 | in covering-only mode the values of d and δ do not affect the outcome |
| `InputFile.EmptyLineRefused` | src/parser.cpp:195-212 | an empty line in the partial-array file is never a valid row |

## Left out

- The array-construction engine (declared in src/array.h) is outside this model, and so are its threads, locks and memory probing.
- The R bindings (src/RcppExports.cpp, src/glue.cpp) and `createParser` (src/parser.cpp:406-440) are left out. They are conversion and registration glue with no logic of their own.
- The free function `getArray` (src/parser.cpp:238-240) is left out. It refers to a member outside any class.
- The destructor (src/parser.cpp:332-335) is left out. It only releases memory.
- The getters `get_d`, `get_t`, `get_delta` are left out. They are the `Config` fields themselves.
- All printing is left out: `syntax_error`, `semantic_error`, `other_error` and every `printf`. These are output text only. The model keeps which error occurred (`InputError`, and for a partial-array line `RowError` with its column from 1) but not the message.
- Opening and reading files is a parameter of the model. `None` stands for a file that cannot be opened. A file is given as its lines. Reading past the end yields an empty line.
- The model does not reproduce one `std::getline` quirk. If line 1 ends the file without a newline, the second `getline` fails and leaves line 1's text in place.
- Stream extraction (`iss >> x`) is abstracted. Each line is a sequence of items, each a number or something else.
  - Reading into a `uint16_t` succeeds exactly on numbers in [0, 2^16).
  - Reading into an `int32_t` succeeds exactly on numbers in [-2^31, 2^31).
  - The library's treatment of signed text read into an unsigned field is modelled as failure.
- The header `parser.h` is not part of this model. The field types are inferred from the function signatures and from `array.h`: t, d, δ, C and the levels are `uint16_t`.
- `unsigned long` is taken to be 64 bits (an LP64 platform). On a platform with a 32-bit `unsigned long`, `stoul` would fail from 2^32 on.
- The count of integer arguments (`num_params`, an `int32_t`) is unbounded in the model. The source would overflow after 2^31 integer arguments.
- `ParseArgs` requires `argc <= |argv|`. The source indexes `argv[itr]` for every `itr < argc` without a check.
- `Numerals.ParseUnsigned`: its contract states when a value can come back (a numeral start after the whitespace) and its range, not the value itself. The value is stated by `Numerals.ParseNumeral` for every argument of the shape whitespace, optional sign, zeros, numeral, non-digit text. Every digit run is some zeros followed by a numeral, but no lemma states that decomposition, so no single closed form covers every string.
- `InputFile.ProcessInput`: models a single call on a freshly constructed parser, starting with no levels and no rows. The source appends to `levels` and `array` without clearing them (src/parser.cpp:169, 231), and resets only `num_rows` (src/parser.cpp:153). A repeated call therefore checks the levels of all calls and checks rows against the first call's levels. A call that returns -1 also leaves the levels and rows read so far behind. Neither effect is modelled.

=== FILE: arguments.dfy ===
/** The command-line constructor `Parser::Parser(argc, argv)` (src/parser.cpp):
    a left fold over the arguments after the program name. Each argument is the
    operand of a preceding `--partial`, the option `--partial` itself, a cluster
    of single-letter flags (`-dv`), an integer (t, then t with the previous t
    becoming d, then δ), or a file name (input, then output). */
module Arguments {
  import opened Common
  import Numerals

  /** `prop_mode`: covering only, covering and locating, or covering, locating and detecting. */
  datatype PropMode = COnly | CAndL | All

  /** `out_mode`: how much the program reports. */
  datatype OutMode = Normal | Halfway | Silent

  /** The reporting switches the single-letter flags control (`o`, `debug`, `v`). */
  datatype Reporting = Reporting(out: OutMode, debug: bool, verbose: bool)

  /** The fields of a parser that the arguments determine. */
  datatype Config = Config(
    d: U16, t: U16, delta: U16, p: PropMode, report: Reporting,
    inFile: string, outFile: string, partialFile: string)

  /** `Parser::Parser()`: d = 1, t = 2, δ = 1, every property requested, normal output. */
  function DefaultConfig(): (c: Config)
    // d sits below t, as the constructor's second integer expects; nothing is reported beyond
    // normal output; no file is named, so every name is still free to be filled
    ensures 1 <= c.d < c.t && c.delta >= 1 && c.p == All
    ensures c.report.out == Normal && !c.report.debug && !c.report.verbose
    ensures c.inFile == "" && c.outFile == "" && c.partialFile == ""
  {
    Config(1, 2, 1, All, Reporting(Normal, false, false), "", "", "")
  }

  /** In silent mode neither debug nor verbose output is switched on. */
  predicate Quiet(r: Reporting) {
    r.out == Silent ==> !r.debug && !r.verbose
  }

  predicate IsOutLetter(c: char) {
    c == 'h' || c == 's'
  }

  /** One letter of a flag cluster: `d` and `v` switch debug and verbose output on unless the
      output is silent, `h` selects halfway output, `s` selects silent output and switches debug
      and verbose off; any other letter is reported and ignored. */
  function FlagLetter(r: Reporting, c: char): (r': Reporting)
    ensures Quiet(r) ==> Quiet(r')
    ensures r'.out != r.out ==> IsOutLetter(c)
    ensures r.out == Silent && r'.out != Silent ==> c == 'h'
    ensures r'.debug && !r.debug ==> c == 'd' && r.out != Silent
    ensures r'.verbose && !r.verbose ==> c == 'v' && r.out != Silent
    ensures c == 's' ==> r' == Reporting(Silent, false, false)
    ensures c == 'h' ==> r' == r.(out := Halfway)
    ensures c == 'd' ==> r' == r.(debug := r.debug || r.out != Silent)
    ensures c == 'v' ==> r' == r.(verbose := r.verbose || r.out != Silent)
    ensures c != 'd' && c != 'v' && !IsOutLetter(c) ==> r' == r
  {
    match c
    case 'd' => if r.out != Silent then r.(debug := true) else r
    case 'v' => if r.out != Silent then r.(verbose := true) else r
    case 'h' => r.(out := Halfway)
    case 's' => Reporting(Silent, false, false)
    case _ => r
  }

  /** Letter `i` is an `s` and no `h` follows it. */
  predicate SilencedAt(letters: string, i: int) {
    0 <= i < |letters| && letters[i] == 's' && forall j :: i < j < |letters| ==> letters[j] != 'h'
  }

  /** Letter `i` is an `h` and neither `h` nor `s` follows it. */
  predicate HalvedAt(letters: string, i: int) {
    0 <= i < |letters| && letters[i] == 'h' && forall j :: i < j < |letters| ==> !IsOutLetter(letters[j])
  }

  /** The letters of a flag cluster, taken from left to right. */
  function Flags(r: Reporting, letters: string): (r': Reporting)
    ensures Quiet(r) ==> Quiet(r')
    ensures (forall i :: 0 <= i < |letters| ==> !IsOutLetter(letters[i])) ==> r'.out == r.out
    ensures Quiet(r) && r.out == Silent && (forall i :: 0 <= i < |letters| ==> letters[i] != 'h') ==>
              r' == Reporting(Silent, false, false)
    // after an `s` that no `h` follows: silent, with debug and verbose output off
    ensures forall i :: SilencedAt(letters, i) ==> r' == Reporting(Silent, false, false)
    // the last output letter decides the output mode
    ensures forall i :: HalvedAt(letters, i) ==> r'.out == Halfway
  {
    if |letters| == 0 then r
    else
      var init := letters[..|letters| - 1];
      assert forall i :: 0 <= i < |init| && SilencedAt(letters, i) ==> SilencedAt(init, i);
      assert forall i :: 0 <= i < |init| && HalvedAt(letters, i) ==> HalvedAt(init, i);
      FlagLetter(Flags(r, init), letters[|letters| - 1])
  }

  /** Taking two clusters one after the other is taking their concatenation. */
  lemma {:induction false} FlagsAppend(r: Reporting, a: string, b: string)
    ensures Flags(r, a + b) == Flags(Flags(r, a), b)
    decreases |b|
  {
    if |b| == 0 {
      assert a + b == a;
    } else {
      var b' := b[..|b| - 1];
      assert (a + b)[..|a + b| - 1] == a + b';
      assert (a + b)[|a + b| - 1] == b[|b| - 1];
      FlagsAppend(r, a, b');
    }
  }

  /** Silent mode holds across clusters: once an `s` is seen, debug and verbose output stay off
      until an `h`, whatever other letters follow. */
  lemma {:induction false} SilentUntilHalfway(r: Reporting, a: string, b: string)
    requires forall j :: 0 <= j < |b| ==> b[j] != 'h'
    ensures Flags(r, a + "s" + b) == Reporting(Silent, false, false)
  {
    FlagsAppend(r, a + "s", b);
    FlagsAppend(r, a, "s");
    assert Flags(Flags(r, a), "s") == FlagLetter(Flags(Flags(r, a), []), 's');
  }

  /** The state of the fold: the configuration so far, whether the previous argument was
      `--partial` (`multichar`), and how many integer arguments have been seen (`num_params`). */
  datatype ArgState = ArgState(cfg: Config, expectPartial: bool, numInts: nat)

  /** `arg[0] == '-'`; for the empty argument `arg[0]` is the terminating NUL, not a dash. */
  predicate IsFlagToken(arg: string) {
    |arg| > 0 && arg[0] == '-'
  }

  /** The integer argument with 0-based position `n` among the integer arguments. */
  function IntegerArg(cfg: Config, n: nat, v: nat): Config {
    if n < 1 then cfg.(t := ToU16(v))
    else if n < 2 then cfg.(d := cfg.t, t := ToU16(v), p := CAndL)
    else if n < 3 then cfg.(delta := ToU16(v), p := All)
    else cfg
  }

  /** A file-name argument fills the input file name, then the output file name. */
  function FileNameArg(cfg: Config, arg: string): Config {
    if cfg.inFile == "" then cfg.(inFile := arg)
    else if cfg.outFile == "" then cfg.(outFile := arg)
    else cfg
  }

  /** One iteration of the constructor's loop. */
  function Step(st: ArgState, arg: string): (st': ArgState)
    ensures Quiet(st.cfg.report) ==> Quiet(st'.cfg.report)
    ensures st'.numInts == st.numInts || st'.numInts == st.numInts + 1
    ensures st'.expectPartial <==> !st.expectPartial && arg == "--partial"
    // the operand of --partial is taken verbatim, and only the first one is kept
    ensures st.expectPartial ==>
              st'.cfg == st.cfg.(partialFile := if st.cfg.partialFile == "" then arg else st.cfg.partialFile)
              && st'.numInts == st.numInts
    // any other argument starting with a dash changes only the reporting switches
    ensures !st.expectPartial && arg != "--partial" && |arg| > 0 && arg[0] == '-' ==>
              st'.cfg.(report := st.cfg.report) == st.cfg && st'.numInts == st.numInts
              && st'.cfg.report == Flags(st.cfg.report, arg[1..])
    // nothing but the operand of --partial sets the partial-array file name
    ensures !st.expectPartial ==> st'.cfg.partialFile == st.cfg.partialFile
  {
    if st.expectPartial then
      var name := if st.cfg.partialFile == "" then arg else st.cfg.partialFile;
      ArgState(st.cfg.(partialFile := name), false, st.numInts)
    else if arg == "--partial" then st.(expectPartial := true)
    else if IsFlagToken(arg) then st.(cfg := st.cfg.(report := Flags(st.cfg.report, arg[1..])))
    else match Numerals.ParseUnsigned(arg)
      case Some(v) => ArgState(IntegerArg(st.cfg, st.numInts, v), false, st.numInts + 1)
      case None => st.(cfg := FileNameArg(st.cfg, arg))
  }

  function Fold(st: ArgState, args: seq<string>): (st': ArgState)
    ensures Quiet(st.cfg.report) ==> Quiet(st'.cfg.report)
    ensures st'.numInts >= st.numInts
    decreases |args|
  {
    if |args| == 0 then st else Fold(Step(st, args[0]), args[1..])
  }

  /** `argv[1..argc)`: the loop starts at index 1, so the program name is never looked at. */
  function ArgsAfterProgramName(argc: int, argv: seq<string>): seq<string>
    requires argc <= |argv|
  {
    if argc <= 1 then [] else argv[1..argc]
  }

  /** `Parser::Parser(argc, argv)`: the defaults, with the mode lowered to covering only,
      then every argument after the program name. */
  function ParseArgs(argc: int, argv: seq<string>): (cfg: Config)
    requires argc <= |argv|
    ensures Quiet(cfg.report)
    ensures argc <= 1 ==> cfg == DefaultConfig().(p := COnly)
  {
    Fold(ArgState(DefaultConfig().(p := COnly), false, 0), ArgsAfterProgramName(argc, argv)).cfg
  }

  // ---------------------------------------------------------------------------------------
  // Reference description: what each argument is, and what the configuration is as a
  // function of the integers, flag letters and names among the arguments.

  datatype Kind =
    | PartialOption
    | PartialOperand(name: string)
    | FlagCluster(letters: string)
    | Integer(value: nat)
    | FileName(name: string)

  /** What an argument is, given whether the argument before it was `--partial`. */
  function KindOf(afterPartial: bool, arg: string): Kind {
    if afterPartial then PartialOperand(arg)
    else if arg == "--partial" then PartialOption
    else if IsFlagToken(arg) then FlagCluster(arg[1..])
    else match Numerals.ParseUnsigned(arg)
      case Some(v) => Integer(v)
      case None => FileName(arg)
  }

  function Classify(args: seq<string>, afterPartial: bool): (ks: seq<Kind>)
    ensures |ks| == |args|
  {
    if |args| == 0 then []
    else
      var k := KindOf(afterPartial, args[0]);
      [k] + Classify(args[1..], k == PartialOption)
  }

  /** The values of the integer arguments, in order. */
  function Integers(ks: seq<Kind>): seq<nat> {
    if |ks| == 0 then []
    else
      var k := ks[|ks| - 1];
      Integers(ks[..|ks| - 1]) + (if k.Integer? then [k.value] else [])
  }

  /** The letters of all flag clusters, in order. */
  function FlagLetters(ks: seq<Kind>): string {
    if |ks| == 0 then []
    else
      var k := ks[|ks| - 1];
      FlagLetters(ks[..|ks| - 1]) + (if k.FlagCluster? then k.letters else [])
  }

  /** The non-empty file-name arguments, in order. */
  function FileNames(ks: seq<Kind>): (names: seq<string>)
    ensures forall i :: 0 <= i < |names| ==> names[i] != ""
  {
    if |ks| == 0 then []
    else
      var k := ks[|ks| - 1];
      FileNames(ks[..|ks| - 1]) + (if k.FileName? && k.name != "" then [k.name] else [])
  }

  /** The non-empty operands of `--partial`, in order. */
  function PartialOperands(ks: seq<Kind>): (names: seq<string>)
    ensures forall i :: 0 <= i < |names| ==> names[i] != ""
  {
    if |ks| == 0 then []
    else
      var k := ks[|ks| - 1];
      PartialOperands(ks[..|ks| - 1]) + (if k.PartialOperand? && k.name != "" then [k.name] else [])
  }

  function NthOrEmpty(names: seq<string>, i: nat): string {
    if i < |names| then names[i] else ""
  }

  /** The configuration the arguments `ks` call for: with integers n1, n2, n3, ... the
      strength t is n1 (one integer) or n2 (two or more), d is n1 (two or more), δ is n3;
      the mode is covering only below two integers, covering and locating with two, all
      three properties with three or more; the reporting switches are the flag letters taken
      in order; the input, output and partial-array names are the first non-empty ones. */
  function Positional(ks: seq<Kind>): Config {
    var ints := Integers(ks);
    Config(
      d := if |ints| >= 2 then ToU16(ints[0]) else 1,
      t := if |ints| == 0 then 2 else if |ints| == 1 then ToU16(ints[0]) else ToU16(ints[1]),
      delta := if |ints| >= 3 then ToU16(ints[2]) else 1,
      p := if |ints| < 2 then COnly else if |ints| == 2 then CAndL else All,
      report := Flags(DefaultConfig().report, FlagLetters(ks)),
      inFile := NthOrEmpty(FileNames(ks), 0),
      outFile := NthOrEmpty(FileNames(ks), 1),
      partialFile := NthOrEmpty(PartialOperands(ks), 0))
  }

  /** One step of the fold extends the reference description by the argument's kind. */
  lemma StepPositional(st: ArgState, arg: string, seen: seq<Kind>)
    requires st.cfg == Positional(seen) && st.numInts == |Integers(seen)|
    ensures var k := KindOf(st.expectPartial, arg);
      Step(st, arg).cfg == Positional(seen + [k])
      && Step(st, arg).numInts == |Integers(seen + [k])|
      && Step(st, arg).expectPartial == (k == PartialOption)
  {
    var k := KindOf(st.expectPartial, arg);
    var ks := seen + [k];
    SnocProjections(seen, k);
    var st' := Step(st, arg);
    if k.FlagCluster? {
      FlagsAppend(DefaultConfig().report, FlagLetters(seen), k.letters);
      assert st'.cfg.report == Positional(ks).report;
    } else {
      assert FlagLetters(ks) == FlagLetters(seen);
    }
  }

  lemma SnocProjections(seen: seq<Kind>, k: Kind)
    ensures Integers(seen + [k]) == Integers(seen) + (if k.Integer? then [k.value] else [])
    ensures FlagLetters(seen + [k]) == FlagLetters(seen) + (if k.FlagCluster? then k.letters else [])
    ensures FileNames(seen + [k]) == FileNames(seen) + (if k.FileName? && k.name != "" then [k.name] else [])
    ensures PartialOperands(seen + [k])
         == PartialOperands(seen) + (if k.PartialOperand? && k.name != "" then [k.name] else [])
  {
  }

  lemma {:induction false} FoldPositional(st: ArgState, args: seq<string>, seen: seq<Kind>)
    requires st.cfg == Positional(seen) && st.numInts == |Integers(seen)|
    ensures Fold(st, args).cfg == Positional(seen + Classify(args, st.expectPartial))
    decreases |args|
  {
    if |args| == 0 {
      assert seen + [] == seen;
    } else {
      var k := KindOf(st.expectPartial, args[0]);
      var st' := Step(st, args[0]);
      StepPositional(st, args[0], seen);
      assert st'.expectPartial == (k == PartialOption);
      assert Fold(st, args) == Fold(st', args[1..]);
      FoldPositional(st', args[1..], seen + [k]);
      var rest := Classify(args[1..], k == PartialOption);
      assert Classify(args, st.expectPartial) == [k] + rest;
      AppendAssociative(seen, [k], rest);
    }
  }

  lemma AppendAssociative<T>(a: seq<T>, b: seq<T>, c: seq<T>)
    ensures a + b + c == a + (b + c)
  {
  }

  /** The constructor's result depends on the arguments only through the integers, the flag
      letters and the names among them, as `Positional` states. */
  lemma ParseArgsPositional(argc: int, argv: seq<string>)
    requires argc <= |argv|
    ensures ParseArgs(argc, argv) == Positional(Classify(ArgsAfterProgramName(argc, argv), false))
  {
    var init := ArgState(DefaultConfig().(p := COnly), false, 0);
    assert init.cfg == Positional([]);
    FoldPositional(init, ArgsAfterProgramName(argc, argv), []);
    assert [] + Classify(ArgsAfterProgramName(argc, argv), false) == Classify(ArgsAfterProgramName(argc, argv), false);
  }

  /** The mode is covering only exactly when fewer than two integers are given, covering and
      locating with exactly two, and all three properties with three or more; further integers
      change none of t, d, δ. */
  lemma ModeCountsIntegers(argc: int, argv: seq<string>)
    requires argc <= |argv|
    ensures var cfg := ParseArgs(argc, argv);
      var ints := Integers(Classify(ArgsAfterProgramName(argc, argv), false));
      (cfg.p == COnly <==> |ints| < 2)
      && (cfg.p == CAndL <==> |ints| == 2)
      && (cfg.p == All <==> |ints| >= 3)
      && (|ints| >= 3 ==> cfg.d == ToU16(ints[0]) && cfg.t == ToU16(ints[1]) && cfg.delta == ToU16(ints[2]))
  {
    ParseArgsPositional(argc, argv);
  }

  /** The program name `argv[0]` has no influence. */
  lemma ProgramNameIgnored(argc: int, argv: seq<string>, name: string)
    requires argc <= |argv| && |argv| > 0
    ensures ParseArgs(argc, argv[0 := name]) == ParseArgs(argc, argv)
  {
  }

  /** Whatever follows `--partial` is the partial-array file, even when it looks like a flag
      or an integer, and leaves everything else as it was. */
  lemma PartialOperandVerbatim(prog: string, operand: string)
    ensures ParseArgs(3, [prog, "--partial", operand])
         == DefaultConfig().(p := COnly, partialFile := operand)
  {
    var argv := [prog, "--partial", operand];
    var args := ArgsAfterProgramName(3, argv);
    assert args == ["--partial", operand];
    var init := ArgState(DefaultConfig().(p := COnly), false, 0);
    var st1 := Step(init, "--partial");
    assert st1 == init.(expectPartial := true);
    var st2 := Step(st1, operand);
    assert st2.cfg == DefaultConfig().(p := COnly, partialFile := operand);
    assert args[1..] == [operand];
    assert Fold(st1, [operand]) == Fold(st2, []);
  }

  /** A single integer argument, written in decimal, sets the strength t to its value modulo
      2^16 (the `uint16_t` field keeps the low 16 bits) and leaves the mode covering only. */
  lemma SingleIntegerSetsStrength(prog: string, n: nat)
    requires n < U64_LIMIT
    ensures ParseArgs(2, [prog, Numerals.Decimal(n)]) == DefaultConfig().(p := COnly, t := n % U16_LIMIT)
  {
    var arg := Numerals.Decimal(n);
    Numerals.ParseDecimal(n, []);
    assert arg + [] == arg;
    assert !IsFlagToken(arg) && arg != "--partial" by {
      assert Numerals.IsDigit(arg[0]);
    }
    var argv := [prog, arg];
    assert ArgsAfterProgramName(2, argv) == [arg];
    var init := ArgState(DefaultConfig().(p := COnly), false, 0);
    assert Fold(init, [arg]) == Fold(Step(init, arg), []);
  }
}

=== FILE: common.dfy ===
/** Shared vocabulary of the parser model: optional values, results, and the
    fixed-width integer ranges the parser stores its numbers in. */
module Common {

  datatype Option<+T> = None | Some(value: T)

  datatype Result<+T, +E> = Success(value: T) | Failure(error: E)

  /** 2^16: a `uint16_t` field (t, d, delta, a level, a row entry) holds values below this. */
  const U16_LIMIT: nat := 0x1_0000

  /** 2^31: an `int32_t` holds values in [-2^31, 2^31). */
  const I32_LIMIT: nat := 0x8000_0000

  /** 2^64: the range of `unsigned long` on an LP64 platform, the result type of `std::stoul`. */
  const U64_LIMIT: nat := 0x1_0000_0000_0000_0000

  /** The values a `uint16_t` can hold (the bound is `U16_LIMIT`, written as a literal so that
      the constraint stays cheap for the verifier). */
  type U16 = x: int | 0 <= x < 0x1_0000

  /** Assigning an unsigned 64-bit value to a `uint16_t` keeps it modulo 2^16. */
  function ToU16(x: nat): (r: U16)
    ensures x < U16_LIMIT ==> r == x
    ensures (x - r) % U16_LIMIT == 0
  {
    x % U16_LIMIT
  }
}

=== FILE: input.dfy ===
/** The validation performed by `Parser::process_input` (src/parser.cpp) on
    input that has already been read and split. The input file is its lines;
    line 1 holds C, the number of factors; line 2 holds the C levels; the
    optional partial-array file holds one row of C values per line. A line is
    the sequence of items the stream extraction operator would meet: a number,
    or something that is not one. Opening a file is a parameter: `None` stands
    for a file that could not be opened. */
module InputFile {
  import opened Common
  import opened Arguments
  import opened Validation

  /** One whitespace-separated item of a line. */
  datatype Token = Num(value: int) | Junk

  type Line = seq<Token>

  /** `iss >> x` for a `uint16_t` x. */
  function ReadU16(tok: Token): (r: Option<U16>)
    ensures r.Some? <==> tok.Num? && 0 <= tok.value < U16_LIMIT
    ensures r.Some? ==> tok == Num(r.value)
  {
    if tok.Num? && 0 <= tok.value < U16_LIMIT then Some(tok.value) else None
  }

  /** `iss >> x` for an `int32_t` x. */
  function ReadI32(tok: Token): (r: Option<int>)
    ensures r.Some? <==> tok.Num? && -(I32_LIMIT as int) <= tok.value < I32_LIMIT
    ensures r.Some? ==> tok == Num(r.value)
  {
    if tok.Num? && -(I32_LIMIT as int) <= tok.value < I32_LIMIT then Some(tok.value) else None
  }

  /** `std::getline` past the end of the file yields an empty line. */
  function LineAt(lines: seq<Line>, k: nat): Line {
    if k < |lines| then lines[k] else []
  }

  /** Line 2: `n` levels, each read into a `uint16_t`; items after the n-th are ignored. */
  function ReadLevels(line: Line, n: nat): (r: Option<seq<U16>>)
    ensures r.Some? <==> |line| >= n && forall j :: 0 <= j < n ==> ReadU16(line[j]).Some?
    ensures r.Some? ==> |r.value| == n && forall j :: 0 <= j < n ==> line[j] == Num(r.value[j])
  {
    if n == 0 then Some([])
    else if |line| == 0 then None
    else match ReadU16(line[0])
      case None => None
      case Some(level) =>
        match ReadLevels(line[1..], n - 1)
        case None => None
        case Some(rest) => Some([level] + rest)
  }

  /** Why a line of the partial array was refused. Columns are numbered from 1. */
  datatype RowError = Malformed | Negative(col: nat) | TooLarge(col: nat)

  /** Why `process_input` returned -1. Lines of the partial array are numbered from 1. */
  datatype InputError =
    | CannotOpenInput
    | BadColumnCount
    | BadLevels
    | BadStrength
    | BadLocation
    | BadDetection
    | CannotOpenPartial
    | BadRow(line: nat, why: RowError)

  /** The first `j` items of `line` are non-negative 32-bit numbers. */
  predicate SignedPrefix(line: Line, j: int) {
    0 <= j <= |line| && forall i :: 0 <= i < j ==> line[i].Num? && 0 <= line[i].value < I32_LIMIT
  }

  /** The first `j` items of `line` are 16-bit numbers, each below its factor's level. */
  predicate UnsignedPrefix(line: Line, levels: seq<U16>, j: int) {
    0 <= j <= |line| && j <= |levels|
    && forall i :: 0 <= i < j ==> line[i].Num? && 0 <= line[i].value < levels[i]
  }

  /** First pass over a partial-array line: `n` values read as `int32_t`, none negative. The
      column `col` is that of the line's first item. */
  function SignedPass(line: Line, n: nat, col: nat): (e: Option<RowError>)
    ensures e.None? <==> (|line| >= n && forall j :: 0 <= j < n ==> line[j].Num? && 0 <= line[j].value < I32_LIMIT)
    ensures e.Some? ==> e.value.Malformed? || e.value.Negative?
    // a negative value is reported with its column, after good values only
    ensures e.Some? && e.value.Negative? ==>
              (col <= e.value.col < col + n && e.value.col - col < |line|
               && ReadI32(line[e.value.col - col]).Some? && line[e.value.col - col].value < 0
               && SignedPrefix(line, e.value.col - col))
    // an unreadable or missing item, after good values only
    ensures e == Some(Malformed) ==>
              exists j :: 0 <= j < n && SignedPrefix(line, j) && (j == |line| || ReadI32(line[j]).None?)
  {
    if n == 0 then None
    else if |line| == 0 then
      assert SignedPrefix(line, 0);
      Some(Malformed)
    else match ReadI32(line[0])
      case None =>
        assert SignedPrefix(line, 0);
        Some(Malformed)
      case Some(v) =>
        if v < 0 then
          assert SignedPrefix(line, 0);
          Some(Negative(col))
        else
          var e := SignedPass(line[1..], n - 1, col + 1);
          assert forall j :: 1 <= j < n && j < |line| ==> line[j] == line[1..][j - 1];
          assert forall j :: 0 <= j < n && SignedPrefix(line[1..], j) ==> SignedPrefix(line, j + 1);
          e
  }

  /** Second pass: the same values read as `uint16_t`, each below its factor's level. */
  function UnsignedPass(line: Line, levels: seq<U16>, col: nat): (r: Result<seq<U16>, RowError>)
    ensures r.Success? <==> (|line| >= |levels|
              && forall j :: 0 <= j < |levels| ==> ReadU16(line[j]).Some? && line[j].value < levels[j])
    ensures r.Success? ==> |r.value| == |levels| && forall j :: 0 <= j < |levels| ==> line[j] == Num(r.value[j])
    ensures r.Failure? ==> r.error.Malformed? || r.error.TooLarge?
    // a value not below its level is reported with its column, after good values only
    ensures r.Failure? && r.error.TooLarge? ==>
              (col <= r.error.col < col + |levels| && r.error.col - col < |line|
               && ReadU16(line[r.error.col - col]).Some?
               && line[r.error.col - col].value >= levels[r.error.col - col]
               && UnsignedPrefix(line, levels, r.error.col - col))
    // an item that is missing or not a 16-bit number, after good values only
    ensures r == Failure(Malformed) ==>
              exists j :: 0 <= j < |levels| && UnsignedPrefix(line, levels, j) && (j == |line| || ReadU16(line[j]).None?)
  {
    if |levels| == 0 then Success([])
    else if |line| == 0 then
      assert UnsignedPrefix(line, levels, 0);
      Failure(Malformed)
    else match ReadU16(line[0])
      case None =>
        assert UnsignedPrefix(line, levels, 0);
        Failure(Malformed)
      case Some(v) =>
        if v >= levels[0] then
          assert UnsignedPrefix(line, levels, 0);
          Failure(TooLarge(col))
        else
          var r := UnsignedPass(line[1..], levels[1..], col + 1);
          assert forall j :: 0 <= j < |levels| && UnsignedPrefix(line[1..], levels[1..], j) ==>
                   UnsignedPrefix(line, levels, j + 1);
          match r
          case Failure(e) => Failure(e)
          case Success(rest) => Success([v] + rest)
  }

  /** What a line of the partial array must hold: at least one value per factor, the j-th a
      number in [0, levels[j]). */
  predicate ValidRow(line: Line, levels: seq<U16>) {
    |line| >= |levels| && forall j :: 0 <= j < |levels| ==> line[j].Num? && 0 <= line[j].value < levels[j]
  }

  /** `row` holds the first values of `line`, one per factor, each below its factor's level. */
  predicate RowOf(row: seq<U16>, line: Line, levels: seq<U16>) {
    |row| == |levels| && |line| >= |levels|
    && forall j :: 0 <= j < |levels| ==> line[j] == Num(row[j]) && row[j] < levels[j]
  }

  /** Both passes over one line of the partial array. The two reads differ in what they refuse
      first (a negative number, or one too large for 16 bits), but together they accept exactly
      the valid rows. */
  function ReadRow(line: Line, levels: seq<U16>): (r: Result<seq<U16>, RowError>)
    ensures r.Success? <==> ValidRow(line, levels)
    ensures r.Success? ==> RowOf(r.value, line, levels)
    // column c (from 1) is reported negative: it holds a negative 32-bit number, and the
    // columns before it hold non-negative ones
    ensures r.Failure? && r.error.Negative? ==>
              (1 <= r.error.col <= |levels| && r.error.col - 1 < |line|
               && ReadI32(line[r.error.col - 1]).Some? && line[r.error.col - 1].value < 0
               && SignedPrefix(line, r.error.col - 1))
    // column c (from 1) is reported too large: the first pass accepted the line, and column c
    // holds a 16-bit number not below its level, after values below theirs
    ensures r.Failure? && r.error.TooLarge? ==>
              (SignedPrefix(line, |levels|)
               && 1 <= r.error.col <= |levels| && r.error.col - 1 < |line|
               && ReadU16(line[r.error.col - 1]).Some?
               && line[r.error.col - 1].value >= levels[r.error.col - 1]
               && UnsignedPrefix(line, levels, r.error.col - 1))
    // malformed: the first pass met a missing or non-32-bit item after good ones, or it
    // accepted the line and the second met an item that is not a 16-bit number
    ensures r == Failure(Malformed) ==>
              (exists j :: 0 <= j < |levels| && SignedPrefix(line, j) && (j == |line| || ReadI32(line[j]).None?))
              || (SignedPrefix(line, |levels|)
                  && exists j :: 0 <= j < |levels| && UnsignedPrefix(line, levels, j) && ReadU16(line[j]).None?)
  {
    match SignedPass(line, |levels|, 1)
    case Some(e) => Failure(e)
    case None => UnsignedPass(line, levels, 1)
  }

  /** A partial array: its rows and the count `num_rows` kept beside them. */
  datatype PartialArray = PartialArray(rows: seq<seq<U16>>, numRows: nat)

  /** The loop over the partial-array file from line `i` on (0-based), with the rows accepted so
      far: every line must be a valid row, and the first one that is not stops the loop. */
  function ReadPartial(lines: seq<Line>, levels: seq<U16>, i: nat, rows: seq<seq<U16>>, numRows: nat)
    : (r: Result<PartialArray, InputError>)
    requires i <= |lines|
    ensures r.Success? <==> forall k :: i <= k < |lines| ==> ValidRow(lines[k], levels)
    ensures r.Success? ==>
              |r.value.rows| == |rows| + (|lines| - i)
              && r.value.numRows == numRows + (|lines| - i)
              && r.value.rows[..|rows|] == rows
              && forall k :: i <= k < |lines| ==> RowOf(r.value.rows[|rows| + (k - i)], lines[k], levels)
    ensures r.Failure? ==>
              r.error.BadRow? && i < r.error.line <= |lines|
              && !ValidRow(lines[r.error.line - 1], levels)
              && forall k :: i <= k < r.error.line - 1 ==> ValidRow(lines[k], levels)
    decreases |lines| - i
  {
    if i == |lines| then Success(PartialArray(rows, numRows))
    else match ReadRow(lines[i], levels)
      case Failure(why) => Failure(BadRow(i + 1, why))
      case Success(row) => ReadPartial(lines, levels, i + 1, rows + [row], numRows + 1)
  }

  /** Line 1 starts with a 16-bit number C of at least 1, and line 2 starts with C 16-bit
      numbers. */
  predicate WellFormedHeader(lines: seq<Line>) {
    var first := LineAt(lines, 0);
    |first| >= 1 && first[0].Num? && 1 <= first[0].value < U16_LIMIT
    && |LineAt(lines, 1)| >= first[0].value
    && forall j :: 0 <= j < first[0].value ==> LineAt(lines, 1)[j].Num? && 0 <= LineAt(lines, 1)[j].value < U16_LIMIT
  }

  /** Lines 1 and 2 of the input file: C, at least 1, then C levels. */
  function Header(lines: seq<Line>): (r: Result<seq<U16>, InputError>)
    ensures r.Success? <==> WellFormedHeader(lines)
    ensures r.Success? ==> |r.value| >= 1 && LineAt(lines, 0)[0] == Num(|r.value|)
    ensures r.Success? ==> (|LineAt(lines, 1)| >= |r.value|
              && forall j :: 0 <= j < |r.value| ==> LineAt(lines, 1)[j] == Num(r.value[j]))
    // a bad C is reported as such; a good C with a bad levels line as bad levels
    ensures r == Failure(BadColumnCount) <==>
              !(|LineAt(lines, 0)| >= 1 && LineAt(lines, 0)[0].Num? && 1 <= LineAt(lines, 0)[0].value < U16_LIMIT)
    ensures r.Failure? ==> r.error == BadColumnCount || r.error == BadLevels
  {
    var first := LineAt(lines, 0);
    var c := if |first| > 0 then ReadU16(first[0]) else None;
    if c.None? || c.value < 1 then Failure(BadColumnCount)
    else match ReadLevels(LineAt(lines, 1), c.value)
      case None => Failure(BadLevels)
      case Some(levels) => Success(levels)
  }

  /** What a successful `process_input` leaves behind: C, the levels, the partial array. */
  datatype Parsed = Parsed(numCols: nat, levels: seq<U16>, partial: PartialArray)

  /** Every line of the partial-array file is a valid row. */
  predicate AllRowsValid(partial: seq<Line>, levels: seq<U16>) {
    forall k :: 0 <= k < |partial| ==> ValidRow(partial[k], levels)
  }

  /** The rows of `pa` are the values of the lines of `partial`, one per line, and `num_rows`
      counts them. */
  predicate RowsOfFile(pa: PartialArray, partial: seq<Line>, levels: seq<U16>) {
    pa.numRows == |pa.rows| && |pa.rows| == |partial|
    && forall k :: 0 <= k < |partial| ==> RowOf(pa.rows[k], partial[k], levels)
  }

  /** The checks `bad_t`, `bad_d`, `bad_delta` as `process_input` applies them, in its order:
      the error of the first that fails, if any. */
  function FeasibilityError(cfg: Config, levels: seq<U16>): (e: Option<InputError>)
    ensures e.None? <==> Feasible(cfg.t, cfg.d, cfg.delta, cfg.p, levels)
    ensures e == Some(BadStrength) <==> BadT(cfg.t, |levels|)
    ensures e == Some(BadLocation) <==> !BadT(cfg.t, |levels|) && cfg.p != COnly && BadD(cfg.d, levels, cfg.p)
    ensures e == Some(BadDetection) <==>
              (!BadT(cfg.t, |levels|) && cfg.p == All && !BadD(cfg.d, levels, cfg.p)
               && BadDelta(cfg.d, cfg.delta, levels))
  {
    if BadT(cfg.t, |levels|) then Some(BadStrength)
    else if cfg.p != COnly && BadD(cfg.d, levels, cfg.p) then Some(BadLocation)
    else if cfg.p == All && BadDelta(cfg.d, cfg.delta, levels) then Some(BadDetection)
    else None
  }

  /** The partial-array part of `process_input`: nothing when no file is named, otherwise every
      line of the file read as a row. */
  function PartialFile(levels: seq<U16>, name: string, partial: Option<seq<Line>>)
    : (r: Result<PartialArray, InputError>)
    ensures r.Success? <==> name == "" || (partial.Some? && AllRowsValid(partial.value, levels))
    ensures r.Success? && name == "" ==> r.value == PartialArray([], 0)
    ensures r.Success? && name != "" ==> partial.Some? && RowsOfFile(r.value, partial.value, levels)
    ensures r == Failure(CannotOpenPartial) <==> name != "" && partial.None?
    ensures r.Failure? ==> r.error == CannotOpenPartial || r.error.BadRow?
    // a refused partial array names its first bad line
    ensures r.Failure? && r.error.BadRow? ==>
              (partial.Some? && 1 <= r.error.line <= |partial.value|
               && !ValidRow(partial.value[r.error.line - 1], levels)
               && forall k :: 0 <= k < r.error.line - 1 ==> ValidRow(partial.value[k], levels))
  {
    if name == "" then Success(PartialArray([], 0))
    else if partial.None? then Failure(CannotOpenPartial)
    else
      ReadPartialFromStart(partial.value, levels);
      ReadPartial(partial.value, levels, 0, [], 0)
  }

  /** Read from the first line with nothing accepted yet, the rows are those of the file. */
  lemma ReadPartialFromStart(lines: seq<Line>, levels: seq<U16>)
    ensures var r := ReadPartial(lines, levels, 0, [], 0);
      r.Success? ==> RowsOfFile(r.value, lines, levels)
  {
    var r := ReadPartial(lines, levels, 0, [], 0);
    if r.Success? {
      forall k | 0 <= k < |lines|
        ensures RowOf(r.value.rows[k], lines[k], levels)
      {
        assert r.value.rows[0 + (k - 0)] == r.value.rows[k];
      }
    }
  }

  /** What a successful `process_input` guarantees about its result, given the partial-array
      file: the configuration is feasible for the levels read, `num_rows` counts the rows, and
      the rows are the values of the partial file's lines, one per line (none when no partial
      file is named), so each has one value per factor below that factor's level. */
  predicate Accepted(cfg: Config, partial: Option<seq<Line>>, res: Parsed) {
    |res.levels| == res.numCols
    && Feasible(cfg.t, cfg.d, cfg.delta, cfg.p, res.levels)
    && (cfg.partialFile == "" ==> res.partial == PartialArray([], 0))
    && (cfg.partialFile != "" ==> partial.Some? && RowsOfFile(res.partial, partial.value, res.levels))
  }

  /** The part of `process_input` after the header: the feasibility checks in the source's
      order, then the partial array when one is named. */
  function CheckAndReadPartial(cfg: Config, levels: seq<U16>, partial: Option<seq<Line>>)
    : (r: Result<Parsed, InputError>)
    ensures r.Success? ==> r.value.levels == levels && Accepted(cfg, partial, r.value)
    ensures r.Success? <==>
              (Feasible(cfg.t, cfg.d, cfg.delta, cfg.p, levels)
               && (cfg.partialFile == "" || (partial.Some? && AllRowsValid(partial.value, levels))))
    // each check's error comes from that check, and only after the earlier ones passed
    ensures r.Failure? && FeasibilityError(cfg, levels).Some? ==> r.error == FeasibilityError(cfg, levels).value
    ensures r.Failure? && FeasibilityError(cfg, levels).None? ==> r.error == CannotOpenPartial || r.error.BadRow?
    ensures r == Failure(CannotOpenPartial) <==>
              Feasible(cfg.t, cfg.d, cfg.delta, cfg.p, levels) && cfg.partialFile != "" && partial.None?
    // a refused partial array names its first bad line
    ensures r.Failure? && r.error.BadRow? ==>
              (partial.Some? && 1 <= r.error.line <= |partial.value|
               && !ValidRow(partial.value[r.error.line - 1], levels)
               && forall k :: 0 <= k < r.error.line - 1 ==> ValidRow(partial.value[k], levels))
  {
    match FeasibilityError(cfg, levels)
    case Some(e) => Failure(e)
    case None =>
      match PartialFile(levels, cfg.partialFile, partial)
      case Failure(e) => Failure(e)
      case Success(pa) => Success(Parsed(|levels|, levels, pa))
  }

  /** The value `process_input` returns: 0 on success, -1 on any error. */
  function ReturnCode(r: Result<Parsed, InputError>): (code: int)
    ensures code == 0 || code == -1
    ensures code == 0 <==> r.Success?
  {
    if r.Success? then 0 else -1
  }

  /** `Parser::process_input`, with the contents of the input file and of the partial-array file
      given (`None`: the file could not be opened). */
  function ProcessInput(cfg: Config, input: Option<seq<Line>>, partial: Option<seq<Line>>)
    : (r: Result<Parsed, InputError>)
    // 0 exactly for a readable, well-formed input file, a feasible request, and (when one is
    // named) a readable partial file whose every line is a valid row
    ensures ReturnCode(r) == 0 <==>
              (input.Some? && WellFormedHeader(input.value)
               && Feasible(cfg.t, cfg.d, cfg.delta, cfg.p, Header(input.value).value)
               && (cfg.partialFile == ""
                   || (partial.Some? && AllRowsValid(partial.value, Header(input.value).value))))
    // success: C >= 1 factors and the levels from the header, and everything Accepted states
    ensures r.Success? ==>
              input.Some? && Header(input.value).Success?
              && r.value.levels == Header(input.value).value
              && r.value.numCols >= 1 && Accepted(cfg, partial, r.value)
    ensures r == Failure(CannotOpenInput) <==> input.None?
    // an unreadable header fails before any feasibility check
    ensures input.Some? && Header(input.value).Failure? ==> r == Failure(Header(input.value).error)
    // after a good header, the first failing feasibility check is the error reported
    ensures input.Some? && Header(input.value).Success? && r.Failure? ==>
              (match FeasibilityError(cfg, Header(input.value).value)
               case Some(e) => r.error == e
               case None => r.error == CannotOpenPartial || r.error.BadRow?)
    // a refused partial array names its first bad line
    ensures r.Failure? && r.error.BadRow? ==>
              (input.Some? && Header(input.value).Success? && partial.Some?
               && 1 <= r.error.line <= |partial.value|
               && !ValidRow(partial.value[r.error.line - 1], Header(input.value).value)
               && forall k :: 0 <= k < r.error.line - 1 ==> ValidRow(partial.value[k], Header(input.value).value))
  {
    if input.None? then Failure(CannotOpenInput)
    else match Header(input.value)
      case Failure(e) => Failure(e)
      case Success(levels) => CheckAndReadPartial(cfg, levels, partial)
  }

  /** An empty line in the partial-array file is refused, since every array has a factor. */
  lemma EmptyLineRefused(levels: seq<U16>)
    requires |levels| >= 1
    ensures !ValidRow([], levels)
  {
  }

  /** In covering-only mode d and δ play no part in reading the input. */
  lemma CoveringOnlyIgnoresLocation(cfg: Config, d: U16, delta: U16, input: Option<seq<Line>>, partial: Option<seq<Line>>)
    requires cfg.p == COnly
    ensures ProcessInput(cfg.(d := d, delta := delta), input, partial) == ProcessInput(cfg, input, partial)
  {
  }
}

=== FILE: numerals.dfy ===
/** `std::stoul` as the argument fold of `Parser::Parser` uses it (src/parser.cpp)
    to tell an integer argument from a file name: base 10, `unsigned long` of
    64 bits, leading whitespace skipped, an optional sign, then the longest run
    of digits; whatever follows the digits is ignored. It throws (here: `None`)
    when no digit follows, and when the digits' value does not fit in 64 bits. */
module Numerals {
  import opened Common
  import Strings

  predicate IsDigit(c: char) {
    '0' <= c <= '9'
  }

  predicate AllDigits(s: string) {
    forall i :: 0 <= i < |s| ==> IsDigit(s[i])
  }

  function DigitValue(c: char): nat
    requires IsDigit(c)
  {
    (c as int) - ('0' as int)
  }

  function DigitChar(k: nat): (c: char)
    requires k < 10
    ensures IsDigit(c) && DigitValue(c) == k
  {
    (('0' as int) + k) as char
  }

  /** Length of the longest run of digits at the front of `s`. */
  function DigitRun(s: string): (n: nat)
    ensures n <= |s|
    ensures forall i :: 0 <= i < n ==> IsDigit(s[i])
    ensures n < |s| ==> !IsDigit(s[n])
  {
    if |s| == 0 || !IsDigit(s[0]) then 0 else 1 + DigitRun(s[1..])
  }

  /** Value of a digit string, most significant digit first. */
  function DigitsValue(s: string): nat
    requires AllDigits(s)
  {
    if |s| == 0 then 0 else 10 * DigitsValue(s[..|s| - 1]) + DigitValue(s[|s| - 1])
  }

  /** The digits at the front of `body`, as a value: `None` when there is no digit or the value
      does not fit in 64 bits. */
  function ParseMagnitude(body: string): (r: Option<nat>)
    ensures r.Some? ==> |body| > 0 && IsDigit(body[0])
    ensures r.Some? ==> r.value < U64_LIMIT
  {
    var n := DigitRun(body);
    if n == 0 then None
    else
      var magnitude := DigitsValue(body[..n]);
      if magnitude >= U64_LIMIT then None else Some(magnitude)
  }

  /** After the whitespace: a digit, or a sign followed by a digit. */
  predicate NumeralStart(u: string) {
    |u| > 0 && (IsDigit(u[0]) || ((u[0] == '+' || u[0] == '-') && |u| > 1 && IsDigit(u[1])))
  }

  /** `std::stoul(s)`: the converted value, or `None` where the call throws
      (`invalid_argument` when no digit follows the whitespace and sign,
      `out_of_range` when the digits' magnitude is 2^64 or more). A minus sign
      negates the magnitude in unsigned arithmetic, that is, modulo 2^64. */
  function ParseUnsigned(s: string): (r: Option<nat>)
    // `invalid_argument` unless the first non-blank character starts a numeral, so a name such
    // as `in1.txt` is never a number, whatever digits come later
    ensures r.Some? ==> NumeralStart(s[Strings.LeadingSpace(s)..])
    ensures r.Some? ==> r.value < U64_LIMIT
  {
    var u := s[Strings.LeadingSpace(s)..];
    if |u| > 0 && u[0] == '-' then
      match ParseMagnitude(u[1..])
      case None => None
      case Some(m) => Some((U64_LIMIT - m) % U64_LIMIT)
    else if |u| > 0 && u[0] == '+' then ParseMagnitude(u[1..])
    else ParseMagnitude(u)
  }

  /** The decimal numeral of `n`, without sign or leading zeros. */
  function Decimal(n: nat): (s: string)
    ensures |s| >= 1 && AllDigits(s)
    ensures DigitsValue(s) == n
  {
    if n < 10 then [DigitChar(n)]
    else
      var s := Decimal(n / 10) + [DigitChar(n % 10)];
      assert s[..|s| - 1] == Decimal(n / 10);
      s
  }

  /** The digit run that starts a string is its longest all-digit prefix, whatever follows. */
  lemma DigitRunOfPrefix(a: string, rest: string)
    requires AllDigits(a)
    requires |rest| > 0 ==> !IsDigit(rest[0])
    ensures DigitRun(a + rest) == |a|
  {
    var s := a + rest;
    assert forall i :: 0 <= i < |a| ==> s[i] == a[i];
    assert |a| < |s| ==> s[|a|] == rest[0];
  }

  /** The numeral of a value, followed by anything that does not start with a digit, reads back
      as that value when it fits in 64 bits and fails (`out_of_range`) when it does not. */
  lemma MagnitudeOfDecimal(n: nat, rest: string)
    requires |rest| > 0 ==> !IsDigit(rest[0])
    ensures ParseMagnitude(Decimal(n) + rest) == if n < U64_LIMIT then Some(n) else None
  {
    DigitRunOfPrefix(Decimal(n), rest);
    assert (Decimal(n) + rest)[..|Decimal(n)|] == Decimal(n);
  }

  /** `k` zero digits. */
  function Zeros(k: nat): (z: string)
    ensures |z| == k && AllDigits(z)
    ensures forall i :: 0 <= i < k ==> z[i] == '0'
  {
    if k == 0 then [] else Zeros(k - 1) + ['0']
  }

  /** Leading zeros do not change the value of a digit string. */
  lemma {:induction false} ZerosValue(k: nat, s: string)
    requires AllDigits(s)
    ensures AllDigits(Zeros(k) + s) && DigitsValue(Zeros(k) + s) == DigitsValue(s)
    decreases |s|, k
  {
    var z := Zeros(k) + s;
    if |s| > 0 {
      assert z[..|z| - 1] == Zeros(k) + s[..|s| - 1];
      ZerosValue(k, s[..|s| - 1]);
    } else if k > 0 {
      assert z == Zeros(k);
      assert z[..|z| - 1] == Zeros(k - 1) + s;
      ZerosValue(k - 1, s);
    }
  }

  /** A digit run with leading zeros has the value of the numeral after the zeros, and fails
      from 2^64 on just the same. */
  lemma LeadingZerosIgnored(k: nat, n: nat, rest: string)
    requires |rest| > 0 ==> !IsDigit(rest[0])
    ensures ParseMagnitude(Zeros(k) + Decimal(n) + rest) == if n < U64_LIMIT then Some(n) else None
  {
    var a := Zeros(k) + Decimal(n);
    assert AllDigits(a);
    DigitRunOfPrefix(a, rest);
    assert (a + rest)[..|a|] == a;
    ZerosValue(k, Decimal(n));
  }

  /** Leading whitespace is skipped: it does not change what `stoul` reads. */
  lemma BlanksSkipped(w: string, u: string)
    requires Strings.AllSpace(w)
    requires |u| > 0 && !Strings.IsSpace(u[0])
    ensures ParseUnsigned(w + u) == ParseUnsigned(u)
  {
    var s := w + u;
    assert forall i :: 0 <= i < |w| ==> s[i] == w[i];
    assert s[|w|] == u[0];
    Strings.LeadingSpaceUnique(s, |w|);
    assert s[|w|..] == u;
    Strings.LeadingSpaceUnique(u, 0);
    assert u[0..] == u;
  }

  /** Such a digit run starts with a digit. */
  lemma ZerosNumeralStart(k: nat, n: nat, rest: string)
    ensures IsDigit((Zeros(k) + Decimal(n) + rest)[0])
  {
    var a := Zeros(k) + Decimal(n);
    assert (a + rest)[0] == a[0];
  }

  /** A sign in front of a digit run: `+` reads the run, `-` negates it modulo 2^64. */
  lemma SignedRun(sign: string, body: string)
    requires sign == "" || sign == "+" || sign == "-"
    requires |body| > 0 && IsDigit(body[0])
    ensures ParseUnsigned(sign + body)
         == if sign == "-" then
              (match ParseMagnitude(body)
               case None => None
               case Some(m) => Some((U64_LIMIT - m) % U64_LIMIT))
            else ParseMagnitude(body)
  {
    var u := sign + body;
    assert u[0] == if sign == "" then body[0] else sign[0];
    Strings.LeadingSpaceUnique(u, 0);
    assert u[0..] == u;
    if sign != "" {
      assert u[1..] == body;
    }
  }

  /** `stoul` on an argument of the general numeral shape: leading whitespace, an optional sign,
      leading zeros, a numeral, and anything that does not start with a digit. The value is the
      numeral's, negated modulo 2^64 after a minus sign; 2^64 or more fails. */
  lemma ParseNumeral(w: string, sign: string, k: nat, n: nat, rest: string)
    requires Strings.AllSpace(w)
    requires sign == "" || sign == "+" || sign == "-"
    requires |rest| > 0 ==> !IsDigit(rest[0])
    ensures ParseUnsigned(w + (sign + (Zeros(k) + Decimal(n) + rest)))
         == if n >= U64_LIMIT then None
            else if sign == "-" then Some((U64_LIMIT - n) % U64_LIMIT)
            else Some(n)
  {
    var body := Zeros(k) + Decimal(n) + rest;
    var u := sign + body;
    ZerosNumeralStart(k, n, rest);
    assert !Strings.IsSpace(u[0]) by {
      assert u[0] == if sign == "" then body[0] else sign[0];
    }
    calc {
      ParseUnsigned(w + u);
    == { BlanksSkipped(w, u); }
      ParseUnsigned(u);
    == { SignedRun(sign, body); }
      if sign == "-" then
        (match ParseMagnitude(body)
         case None => None
         case Some(m) => Some((U64_LIMIT - m) % U64_LIMIT))
      else ParseMagnitude(body);
    == { LeadingZerosIgnored(k, n, rest); }
      if n >= U64_LIMIT then None
      else if sign == "-" then Some((U64_LIMIT - n) % U64_LIMIT)
      else Some(n);
    }
  }

  /** Round trip: `stoul` reads back the numeral of any 64-bit value, followed by anything
      that does not start with a digit. */
  lemma ParseDecimal(n: nat, rest: string)
    requires n < U64_LIMIT
    requires |rest| > 0 ==> !IsDigit(rest[0])
    ensures ParseUnsigned(Decimal(n) + rest) == Some(n)
  {
    var s := Decimal(n) + rest;
    assert s[0] == Decimal(n)[0];
    Strings.LeadingSpaceUnique(s, 0);
    assert s[0..] == s;
    MagnitudeOfDecimal(n, rest);
  }

  /** `out_of_range`: a numeral of 2^64 or more is not an integer argument, so the constructor
      takes it as a file name. */
  lemma ParseOverflow(n: nat, rest: string)
    requires n >= U64_LIMIT
    requires |rest| > 0 ==> !IsDigit(rest[0])
    ensures ParseUnsigned(Decimal(n) + rest) == None
  {
    var s := Decimal(n) + rest;
    assert s[0] == Decimal(n)[0];
    Strings.LeadingSpaceUnique(s, 0);
    assert s[0..] == s;
    MagnitudeOfDecimal(n, rest);
  }

  /** After whitespace, a minus sign makes `stoul` wrap the magnitude modulo 2^64 instead of
      failing; a magnitude of 2^64 or more still fails. */
  lemma ParseNegated(w: string, n: nat)
    requires Strings.AllSpace(w)
    ensures ParseUnsigned(w + "-" + Decimal(n))
         == if n < U64_LIMIT then Some((U64_LIMIT - n) % U64_LIMIT) else None
  {
    var d := Decimal(n);
    var s := w + "-" + d;
    assert forall i :: 0 <= i < |w| ==> s[i] == w[i];
    assert s[|w|] == '-';
    Strings.LeadingSpaceUnique(s, |w|);
    var u := s[|w|..];
    assert u[1..] == d + [];
    MagnitudeOfDecimal(n, []);
  }

  /** A name whose digits come after a letter, such as `in1.txt`, is not an integer argument. */
  lemma LaterDigitsNoNumber(w: string, name: string)
    requires Strings.AllSpace(w)
    requires |name| > 0 && !IsDigit(name[0]) && name[0] != '+' && name[0] != '-' && !Strings.IsSpace(name[0])
    ensures ParseUnsigned(w + name) == None
  {
    var s := w + name;
    assert forall i :: 0 <= i < |w| ==> s[i] == w[i];
    assert s[|w|] == name[0];
    Strings.LeadingSpaceUnique(s, |w|);
    assert s[|w|..] == name;
  }

  /** A string without any digit is never an integer argument. */
  lemma NoDigitNoNumber(s: string)
    requires forall i :: 0 <= i < |s| ==> !IsDigit(s[i])
    ensures ParseUnsigned(s) == None
  {
  }
}

=== FILE: strings.dfy ===
/** `Parser::trim` (src/parser.cpp): removal of leading and trailing
    whitespace, where whitespace is what `std::isspace` accepts in the "C"
    locale. */
module Strings {

  /** `std::isspace` in the "C" locale: space, and the controls \t \n \v \f \r (codes 9 to 13). */
  predicate IsSpace(c: char) {
    c == ' ' || ('\t' <= c <= '\r')
  }

  predicate AllSpace(s: string) {
    forall i :: 0 <= i < |s| ==> IsSpace(s[i])
  }

  /** Length of the run of whitespace at the front of `s` (what the first `find_if` skips). */
  function LeadingSpace(s: string): (n: nat)
    ensures n <= |s|
    ensures forall i :: 0 <= i < n ==> IsSpace(s[i])
    ensures n < |s| ==> !IsSpace(s[n])
  {
    if |s| == 0 || !IsSpace(s[0]) then 0
    else 1 + LeadingSpace(s[1..])
  }

  /** Length of the run of whitespace at the back of `s` (what the reverse `find_if` skips). */
  function TrailingSpace(s: string): (n: nat)
    ensures n <= |s|
    ensures forall i :: |s| - n <= i < |s| ==> IsSpace(s[i])
    ensures n < |s| ==> !IsSpace(s[|s| - n - 1])
  {
    if |s| == 0 || !IsSpace(s[|s| - 1]) then 0
    else 1 + TrailingSpace(s[..|s| - 1])
  }

  /** The leading run is the only prefix of whitespace followed by a non-space or the end. */
  lemma LeadingSpaceUnique(s: string, k: nat)
    requires k <= |s|
    requires forall i :: 0 <= i < k ==> IsSpace(s[i])
    requires k < |s| ==> !IsSpace(s[k])
    ensures LeadingSpace(s) == k
  {
  }

  /** The trailing run is the only suffix of whitespace preceded by a non-space or the start. */
  lemma TrailingSpaceUnique(s: string, k: nat)
    requires k <= |s|
    requires forall i :: |s| - k <= i < |s| ==> IsSpace(s[i])
    requires k < |s| ==> !IsSpace(s[|s| - k - 1])
    ensures TrailingSpace(s) == k
  {
  }

  /** `Parser::trim`: erase the leading whitespace, then the trailing whitespace of what is left.
      The result is the slice of `s` that starts after the leading whitespace; everything cut
      away is whitespace, and the result neither starts nor ends with whitespace. */
  function Trim(s: string): (r: string)
    ensures LeadingSpace(s) + |r| <= |s|
    ensures r == s[LeadingSpace(s)..LeadingSpace(s) + |r|]
    ensures forall i :: 0 <= i < LeadingSpace(s) ==> IsSpace(s[i])
    ensures forall i :: LeadingSpace(s) + |r| <= i < |s| ==> IsSpace(s[i])
    ensures |r| > 0 ==> !IsSpace(r[0]) && !IsSpace(r[|r| - 1])
  {
    var rest := s[LeadingSpace(s)..];
    rest[..|rest| - TrailingSpace(rest)]
  }

  /** Trimming is determined by any split of the input into whitespace, a core that neither
      starts nor ends with whitespace, and whitespace: the result is that core. */
  lemma {:induction false} TrimOfSplit(a: string, m: string, b: string)
    requires AllSpace(a) && AllSpace(b)
    requires |m| > 0 ==> !IsSpace(m[0]) && !IsSpace(m[|m| - 1])
    ensures Trim(a + m + b) == m
  {
    var s := a + m + b;
    if |m| == 0 {
      assert s == a + b;
      assert AllSpace(s) by {
        forall i | 0 <= i < |s| ensures IsSpace(s[i]) {
          if i < |a| { assert s[i] == a[i]; } else { assert s[i] == b[i - |a|]; }
        }
      }
      assert s[..|s|] == s;
      LeadingSpaceUnique(s, |s|);
    } else {
      assert s[..|a|] == a;
      assert s[|a|] == m[0];
      LeadingSpaceUnique(s, |a|);
      var rest := s[|a|..];
      assert rest == m + b;
      assert rest[|rest| - |b|..] == b;
      assert rest[|rest| - |b| - 1] == m[|m| - 1];
      TrailingSpaceUnique(rest, |b|);
      assert rest[..|rest| - |b|] == m;
    }
  }

  /** Trimming twice is trimming once. */
  lemma TrimIdempotent(s: string)
    ensures Trim(Trim(s)) == Trim(s)
  {
  }

  /** Trimming yields the empty string exactly when the input is all whitespace. */
  lemma TrimEmptyIffAllSpace(s: string)
    ensures Trim(s) == [] <==> AllSpace(s)
  {
  }
}

=== FILE: validation.dfy ===
/** The feasibility checks `bad_t`, `bad_d` and `bad_delta` (src/parser.cpp):
    whether a covering array of strength t, a (d, t)-locating array or a
    (d, t, δ)-detecting array can exist for the given factor levels. The
    strength t is passed to `bad_d` and `bad_delta` only for their messages,
    so it is not a parameter here. */
module Validation {
  import opened Arguments

  /** `bad_t`: the strength must be at least 1 and at most the number of factors. */
  function BadT(t: nat, numCols: nat): (bad: bool)
    ensures bad <==> !(1 <= t <= numCols)
  {
    t > numCols || t == 0
  }

  predicate Locating(p: PropMode) {
    p == All || p == CAndL
  }

  predicate SomeLevelBelow(levels: seq<nat>, d: nat) {
    exists i :: 0 <= i < |levels| && levels[i] < d
  }

  predicate SomeLevelAtMost(levels: seq<nat>, d: nat) {
    exists i :: 0 <= i < |levels| && levels[i] <= d
  }

  /** The loop of `bad_d`, with `count` levels equal to d already seen: it stops at the first
      level below d or at the second level equal to d. */
  function ScanLocating(levels: seq<nat>, d: nat, count: nat): (bad: bool)
    requires count <= 1
    ensures bad <==> SomeLevelBelow(levels, d) || count + multiset(levels)[d] >= 2
  {
    if |levels| == 0 then false
    else
      assert levels == [levels[0]] + levels[1..];
      if levels[0] < d then true
      else if levels[0] == d then
        if count + 1 >= 2 then true else ScanLocating(levels[1..], d, count + 1)
      else ScanLocating(levels[1..], d, count)
  }

  /** `bad_d`: when location is requested, no factor may have fewer than d levels and at most
      one factor may have exactly d levels. */
  function BadD(d: nat, levels: seq<nat>, p: PropMode): (bad: bool)
    ensures bad <==> Locating(p) && (SomeLevelBelow(levels, d) || multiset(levels)[d] >= 2)
  {
    if Locating(p) then ScanLocating(levels, d, 0) else false
  }

  /** The loop of `bad_delta`: it stops at the first level that is at most d. */
  function ScanDetecting(levels: seq<nat>, d: nat): (bad: bool)
    ensures bad <==> SomeLevelAtMost(levels, d)
  {
    if |levels| == 0 then false
    else if levels[0] <= d then true
    else
      var bad := ScanDetecting(levels[1..], d);
      assert forall i :: 1 <= i < |levels| ==> levels[i] == levels[1..][i - 1];
      bad
  }

  /** `bad_delta`: δ must be at least 1 and every factor must have more than d levels. */
  function BadDelta(d: nat, delta: nat, levels: seq<nat>): (bad: bool)
    ensures bad <==> delta == 0 || SomeLevelAtMost(levels, d)
  {
    if delta == 0 then true else ScanDetecting(levels, d)
  }

  /** Whatever passes the detecting check passes the locating check: every level is then above d,
      so none is below d and none equals d. */
  lemma DetectableIsLocatable(d: nat, delta: nat, levels: seq<nat>, p: PropMode)
    requires !BadDelta(d, delta, levels)
    ensures !BadD(d, levels, p)
  {
  }

  /** The checks `process_input` applies for the requested mode, in its order: strength always,
      location unless covering only, detection in the all-properties mode. */
  predicate Feasible(t: nat, d: nat, delta: nat, p: PropMode, levels: seq<nat>) {
    !BadT(t, |levels|)
    && (p == COnly || !BadD(d, levels, p))
    && (p != All || !BadDelta(d, delta, levels))
  }

  /** Feasibility in terms of the levels alone: t factors exist; for location no factor has
      fewer than d levels and at most one has exactly d; for detection δ >= 1 and every factor
      has more than d levels. */
  lemma FeasibleLevels(t: nat, d: nat, delta: nat, p: PropMode, levels: seq<nat>)
    ensures Feasible(t, d, delta, p, levels)
        <==> (1 <= t <= |levels|
              && (p != COnly ==> (forall i :: 0 <= i < |levels| ==> levels[i] >= d)
                                 && multiset(levels)[d] <= 1)
              && (p == All ==> delta >= 1 && forall i :: 0 <= i < |levels| ==> levels[i] > d))
  {
  }

  /** The defaults of `Parser::Parser()` (t = 2, d = 1, δ = 1) ask for at least two factors, and
      for location and detection, at least two levels per factor; the command-line constructor
      lowers the mode to covering only, where two factors suffice. */
  lemma DefaultsFeasible(levels: seq<nat>)
    ensures var c := DefaultConfig();
      Feasible(c.t, c.d, c.delta, c.p, levels)
      <==> |levels| >= 2 && forall i :: 0 <= i < |levels| ==> levels[i] >= 2
    ensures var c := DefaultConfig();
      Feasible(c.t, c.d, c.delta, COnly, levels) <==> |levels| >= 2
  {
  }

  /** Asking for more properties can only make a configuration infeasible, never feasible. */
  lemma FeasibleEscalates(t: nat, d: nat, delta: nat, levels: seq<nat>)
    ensures Feasible(t, d, delta, All, levels) ==> Feasible(t, d, delta, CAndL, levels)
    ensures Feasible(t, d, delta, CAndL, levels) ==> Feasible(t, d, delta, COnly, levels)
    ensures Feasible(t, d, delta, All, levels) <==> !BadT(t, |levels|) && !BadDelta(d, delta, levels)
  {
  }
}
